=== FILE: README.md ===
# P2PChat node core in Dafny

A model of the message-carrying core of the P2PChat node (`p2pchat.c`,
`reading.c`, `writing.c`, `writing.h`), with proofs about it:

- **Frame codec.** `broadcast` sends each line as a frame of two
  length-prefixed fields: the sender's name, then the text. Each prefix is
  the 8-byte memory image of a `size_t` (LP64, little-endian).
  `peer_read_thread` reads frames back. It refuses any length above
  `MESSAGE_LEN` (2048) and displays every frame it reads whole.
- **Full-transfer helpers.** `read_helper` and `write_helper` re-issue
  partial reads and writes at an advancing offset. The kernel is an oracle
  over stream positions. Each imperative loop keeps a trace of the calls it issued. The
  two loops as written are tied to one reference definition of a full
  transfer (`Io.Run`); the corrected read loop, which stops on a zero
  answer, is not. `p2pchat.c:58-73` is a
  verbatim copy of `reading.c:16-32` and is modelled once, as
  `Reading.ReadHelper`. `writing.h` carries a second copy of the
  `write_helper` loop over `char`.
- **Peer table.** The table is a fixed array of `CAPACITY` (1000)
  descriptors plus a count. The accepting thread stores each new connection
  while there is room and closes it otherwise.
- **Broadcast fan-out.** Every registered peer except the sender gets four
  `write_helper` calls. The first call whose result is not `(ssize_t)len`
  abandons that peer. `broadcast` reads the globals `peers` and
  `num_peers` under `peers_lock` and never assigns to them
  (`p2pchat.c:31-55`). `Fanout.Broadcast` therefore receives the table as
  a value and returns only what each connection takes.
- **Input classifier.** `input_callback` exits on `:quit` or `:q` and
  otherwise shows the line locally.

Modules, one per file: `SizeT` (size_t, ssize_t and the length encoding),
`CStrings` (`strlen`, NUL termination, `strcmp`), `Io` (oracle, call traces,
reference run), `Reading`, `Writing`, `WritingHeader`, `Ui`, `Codec`,
`Peers`, `Fanout`, `Input`.

Some behaviours of the code, which the model follows:
- frames carry no message identifier, and nothing deduplicates lines;
- the relay call at `p2pchat.c:109` is commented out, so a received line
  is only displayed;
- `input_callback` does not broadcast, so a typed line is only shown
  locally;
- a peer whose write fails stays in the table;
- a peer whose reading thread stopped (`p2pchat.c:84-85`, `p2pchat.c:114`)
  stays in the table with its descriptor open;
- `broadcast` holds `peers_lock` across all its writes.

## Model

| member | source | states |
|---|---|---|
| SizeT.EncodeSize | p2pchat.c:41 | the 8 bytes written for a length are exactly 8 and decode back to that length |
| SizeT.DecodeSize | p2pchat.c:84 | the 8 bytes read as a length give a value in size_t range (`p2pchat.c:98` reads the text length the same way) |
| SizeT.EncodeDecodeSize | p2pchat.c:84 | any 8 bytes read as a length are the encoding of the length they decode to, so the encoding is a bijection |
| SizeT.ToSsize | writing.c:23 | the `(ssize_t)` cast gives a value in ssize_t range that is congruent to its input modulo 2^64 |
| SizeT.ToSize | reading.c:25 | returning a negative `ssize_t` from a `size_t` function wraps it modulo 2^64 into size_t range |
| SizeT.CastsInvert | p2pchat.c:41-50 | the two casts invert each other; `(ssize_t)len == len` exactly when len < 2^63, and a size_t keeps an ssize_t's value exactly when it is non-negative |
| CStrings.StrLen | p2pchat.c:32-33 | `strlen` is the index of the first NUL: in bounds, a NUL there, none before |
| CStrings.Contents | p2pchat.c:32-33 | the C string's contents are NUL-free, a prefix of the buffer, and followed by NUL |
| CStrings.ContentsOfTerminated | p2pchat.c:90-91 | a buffer terminated after the bytes read shows a prefix of them, and all of them when they hold no NUL |
| CStrings.StrCmp | p2pchat.c:169 | `strcmp` is zero exactly when the two strings are equal, and otherwise a value strictly between -256 and 256 |
| Io.Run | writing.c:18-22 | a full transfer that fails does so with a negative answer at an offset short of the length |
| Io.ExtendTrace | writing.c:19-21 | one loop iteration: a negative answer ends the trace as a failure at the current offset; any other answer advances the offset by the answer |
| Reading.ReadHelper | reading.c:16-32 | on a connection that never answers 0: the calls follow the full-read pattern and agree with the reference run; success returns len and fills the buffer's front with the stream's next len bytes, leaving the rest untouched; failure returns the error wrapped to size_t; for len < 2^63, result == len iff no call failed |
| Reading.Iterate | reading.c:21-28 | the as-written loop, run for a bounded number of iterations, with no progress assumption: while still looping, the count is short of len and never behind where it started; when it returns, the value is a negative answer or a count of at least len. A failing read's answer comes back raw, before the `size_t` conversion of `reading.c:25` |
| Reading.IterateAgreesWithRun | reading.c:21-28 | on a connection that never answers 0, the as-written loop with enough iterations returns the length when the reference run finishes, and the failing answer when it fails |
| Reading.SpinsAtEndOfStream | reading.c:21-28 | once reads answer 0 (the peer closed), the loop stays at the same count for any number of iterations and never returns |
| Reading.TruncatedNameSpins | p2pchat.c:88-94 | a peer that announces a 4-byte name, sends 2 bytes and closes leaves the loop spinning at 2 bytes |
| Reading.ReadHelperToEnd | reading.c:16-32 | corrected loop, with no progress assumption: a short count happens only when the last read answered 0; every earlier read moved bytes; the buffer holds exactly the bytes read |
| Writing.WriteHelper | writing.c:13-24 | the calls follow the full-write pattern and agree with the reference run; success returns `(ssize_t)len`; failure returns the first negative answer; the connection takes exactly the buffer's first Reached bytes |
| WritingHeader.WriteHelper | writing.h:7-18 | the header's copy behaves as the writing.c loop; each write starts strictly further into the buffer than the one before; a failure leaves part of the buffer unsent |
| WritingHeader.OffsetsIncrease | writing.h:12-16 | on a connection that never answers 0, the offsets of successive writes strictly increase |
| Codec.Encode | p2pchat.c:41-52 | a frame is 16 bytes longer than its name and text together |
| Codec.EncodeIsFields | p2pchat.c:41-52 | the frame is the four writes of `broadcast` back to back |
| Codec.Received | p2pchat.c:102-108 | the displayed text is a prefix of the bytes received, and all of them when they hold no NUL |
| Codec.ReadField | p2pchat.c:84-94 | a field is read only when its prefix is whole, at most 2048, and followed by that many bytes; the stream is prefix, bytes, rest |
| Codec.ReadEncodedField | p2pchat.c:84-94 | a field written with its true length prefix reads back intact, and the rest of the stream is left alone |
| Codec.DecodeFrame | p2pchat.c:83-108 | one decoded frame consumes at least 16 bytes, leaves a suffix, and shows NUL-free fields of at most 2048 bytes each |
| Codec.DecodeFrameSound | p2pchat.c:83-108 | a decoded frame is exactly the encoding of two fields of at most 2048 bytes each, followed by the rest of the stream, and the line shown is those two fields read as C strings |
| Codec.DecodeEncode | p2pchat.c:83-108 | decoding an encoded line gives the line back and leaves the following bytes alone |
| Codec.ReadLoop | p2pchat.c:81-113 | the reading thread's `while(1)` loop over everything a peer sends: every line shown used at least 16 bytes of the stream |
| Codec.ReadLoopShowsFittingLines | p2pchat.c:81-113 | whatever a peer sends, every displayed line has a NUL-free name and text of at most 2048 bytes each |
| Codec.ReadLoopOfEncoded | p2pchat.c:81-113 | a stream of well-formed frames followed by anything shows those lines in order, followed by whatever the remainder shows |
| Codec.SessionShowsEveryFrame | p2pchat.c:81-113 | a peer that sends well-formed frames and closes gets every line shown exactly once, in order, and the thread stops on the close |
| Codec.OversizedNameEndsSession | p2pchat.c:88 | after any well-formed frames, a name length above 2048 stops the thread, and nothing of that frame is shown |
| Codec.OversizedTextEndsSession | p2pchat.c:101 | after any well-formed frames, a text length above 2048 stops the thread, and nothing of that frame is shown |
| Codec.ReadFieldOfPrefix | p2pchat.c:94 | a field cut short before its last byte never reads as a field |
| Codec.PartialFrameShowsNothing | p2pchat.c:83-108 | a frame cut short at any point shows nothing |
| Peers.Initial | p2pchat.c:24-25 | the table starts valid and empty |
| Peers.Register | p2pchat.c:129-139 | while there is room, the descriptor joins the end of the active peers and no other slot changes; when full, the table is unchanged and the descriptor is closed |
| Peers.Accept | p2pchat.c:124-139 | a failed `accept` leaves the table unchanged; any other result is registered |
| Peers.AcceptAll | p2pchat.c:122-139 | the accepting loop over a run of `accept` results keeps the table valid, with at most 1000 peers, and records one event per result |
| Peers.AcceptAllAdmitsFirst | p2pchat.c:122-139 | over any run of accepts, the table admits the first arrivals in order until full and closes exactly the ones after that |
| Peers.RegistryBound | p2pchat.c:130-137 | from start-up, the first 1000 connections are the peers and every later one is closed |
| Fanout.DeliverAllIffAccepted | p2pchat.c:41-52 | the whole frame reaches a peer exactly when all four full writes finish |
| Fanout.SendFields | p2pchat.c:41-52 | the connection takes the frame up to its first failed write; `complete` holds exactly when every write passed the length check |
| Fanout.SendFrame | p2pchat.c:41-52 | one peer's connection takes a prefix of the frame fixed by the reference run; `complete` holds exactly when that prefix is the whole frame |
| Fanout.Broadcast | p2pchat.c:31-55 | one result per table slot: the sender's own descriptor gets nothing, and every other peer gets the frame of the two C strings' contents up to its first failed write |
| Fanout.DeliveredFrameDisplays | p2pchat.c:41-108 | for a connection that carries this frame's delivered bytes and nothing after them: the receiving peer shows the line exactly once when all four writes finished, and shows nothing otherwise |
| Fanout.AbandonedFrameGarblesNext | p2pchat.c:36-108 | a failed peer stays in the table (lines 36-53 never remove it), so the next frame follows the fragment on the same stream. For a 10-byte name abandoned after one byte, the receiver shows a garbled line: the old byte and a length byte as the sender, under the next frame's text |
| Fanout.LongLineNeverShown | p2pchat.c:31-101 | the sender does not check the 2048 limit, so a longer line that reaches a peer whole ends that peer's reading thread and is never shown |
| Input.OnInput | p2pchat.c:168-175 | the node exits exactly on `:quit` or `:q`; any other line is shown under the user's name |

## Left out

- Threads, `peers_lock` and the UI thread are left out. Each table update and each broadcast is one atomic step, because the lock serialises them.
- Sockets, `ui_display`, `ui_exit` and `ui_init` are left out. The kernel becomes an oracle parameter and a display becomes a `Display` value.
- `malloc`, `free` and the `fd_ptr` hand-off are left out. This includes the close at `p2pchat.c:144` on allocation failure, which leaves a closed descriptor registered.
- `main` is left out: the argument check, opening the server socket, and the outgoing `socket_connect`, whose descriptor is never registered or read.
- The commented-out relay call and the commented-out connection loop are left out. `reading.h` is left out too: it only declares functions.
- Reading.ReadHelper: assumes the connection never answers 0. The as-written loop does not end without that assumption (see Findings).
- Writing.WriteHelper: assumes the connection never answers 0 to a non-empty write.
- WritingHeader.WriteHelper: the same assumption as Writing.WriteHelper.
- Codec.DecodeFrame: works on all the bytes a peer sends. The single `read` calls at `p2pchat.c:84` and `p2pchat.c:98` are taken to return 8 bytes whenever 8 remain.
- Codec.DecodeFrame: the unchecked read at `p2pchat.c:98` can leave `message_len` uninitialised, and the reads at `p2pchat.c:94` and `p2pchat.c:106` ignore a short count. All three cases are modelled as the `Truncated` stop.
- Fanout.Broadcast: the name and text must be shorter than 2^63 bytes, because larger objects cannot exist in a 64-bit address space.
- Fanout.Broadcast: each peer's connection is seen from the start of this broadcast, so earlier broadcasts on the same connection are not modelled.
- Fanout.DeliveredFrameDisplays: covers a connection that carries nothing after this frame. A peer whose write failed stays registered, so a later broadcast's frame follows the fragment on the same stream. The receiver then reads out of step, as `Fanout.AbandonedFrameGarblesNext` shows for one case. The model does not describe what a receiver shows in general after such a fragment.
- Fanout.Broadcast: a failing `write` is modelled as a negative return. On Linux, a write to a connection the peer has reset raises SIGPIPE instead, and that ends the process unless SIGPIPE is ignored somewhere outside this code. A peer whose reading thread stopped stays registered with its descriptor open, so the next broadcast writes to exactly such a connection.
- Fanout.Broadcast: two table slots that hold the same descriptor are modelled as two separate connections, each fresh from position 0. This can happen after the close at `p2pchat.c:144`, when a later `accept` reuses the number. In the source, the second slot's frame goes onto the same stream after the first slot's frame.

## Findings

| source | as written | input that shows it | evidently intended | confidence | as-written member | corrected member |
|---|---|---|---|---|---|---|
| reading.c:21-28 | a `read` that answers 0 adds nothing, and the loop reads again | a peer announces a 4-byte name, sends 2 bytes and closes: `read` answers 0 for ever and the thread spins | treat 0 as end of stream and return the short count | high; not executed | Reading.TruncatedNameSpins | Reading.ReadHelperToEnd |

The frame decoder in `Codec` stops with `Truncated` when the stream ends
inside a field, and shows nothing of that frame. That matches the source
as written, where the thread hangs inside `read_helper` and never reaches
`ui_display`. It does not describe `read_helper` replaced by
`Reading.ReadHelperToEnd` alone. `p2pchat.c:94` and `p2pchat.c:106` ignore
the helper's return value. With the corrected helper, a text cut short
would reach `ui_display` at `p2pchat.c:108` with a partly filled buffer,
and a name cut short would go on to the unchecked read at `p2pchat.c:98`.
Those two call sites would also have to check the returned count.

=== FILE: codec.dfy ===
/** The wire format between chat nodes and its decoding by each peer's
    reading thread. A frame is two length-prefixed fields, sender name then
    message text, each prefix the memory image of a `size_t`:

      [len(name)][name bytes][len(text)][text bytes]

    A receiver refuses any length above `MESSAGE_LEN`. */
module Codec {
  import opened SizeT
  import opened CStrings
  import opened Ui

  /** The largest field length a receiver accepts. */
  const MESSAGE_LEN: nat := 2048

  /** Concatenation of a frame's fields, in order. */
  function Concat(parts: seq<seq<byte>>): (s: seq<byte>)
  {
    if parts == [] then [] else parts[0] + Concat(parts[1..])
  }

  /** The four writes `broadcast` issues per peer, in order: the name's
      length, the name, the text's length, the text. */
  function Fields(name: seq<byte>, text: seq<byte>): (fs: seq<seq<byte>>)
    requires IsSize(|name|) && IsSize(|text|)
  {
    [EncodeSize(|name|), name, EncodeSize(|text|), text]
  }

  /** The frame that carries `name` and `text`: the four fields of
      `Fields(name, text)` back to back. */
  function Encode(name: seq<byte>, text: seq<byte>): (f: seq<byte>)
    requires IsSize(|name|) && IsSize(|text|)
    ensures |f| == 2 * SIZE_T_BYTES + |name| + |text|
  {
    EncodeSize(|name|) + name + EncodeSize(|text|) + text
  }

  lemma EncodeIsFields(name: seq<byte>, text: seq<byte>)
    requires IsSize(|name|) && IsSize(|text|)
    ensures Encode(name, text) == Concat(Fields(name, text))
  {
    var fs := Fields(name, text);
    assert Concat(fs[3..]) == text by {
      assert fs[3..] == [text];
    }
    assert Concat(fs[2..]) == fs[2] + Concat(fs[3..]) by {
      assert fs[2..][1..] == fs[3..];
    }
    assert Concat(fs[1..]) == fs[1] + Concat(fs[2..]) by {
      assert fs[1..][1..] == fs[2..];
    }
  }

  /** A line a peer can send and have shown intact: both parts are C-string
      contents within the receiver's limit. */
  predicate Fits(d: Display) {
    && |d.sender| <= MESSAGE_LEN && |d.text| <= MESSAGE_LEN
    && NUL !in d.sender && NUL !in d.text
  }

  /** Why a peer's reading thread stopped: the length prefix could not be
      read whole (the peer closed), a length exceeded `MESSAGE_LEN`, or the
      stream ended inside a frame. */
  datatype Halt = Closed | Oversized | Truncated

  /** One pass of the reading loop: a line shown and the stream left over,
      or the reason the loop ends. */
  datatype Step = Next(shown: Display, rest: seq<byte>) | Stop(why: Halt)

  /** The receiving thread NUL-terminates the bytes it read and displays
      them as a C string. */
  function Received(b: seq<byte>): (s: seq<byte>)
    ensures s <= b
    ensures NUL !in b ==> s == b
  {
    ContentsOfTerminated(b);
    Contents(b + [NUL])
  }

  /** One length-prefixed field read off the stream, or why it could not
      be. */
  datatype Field = Field(bytes: seq<byte>, rest: seq<byte>) | Missing(why: Halt)

  /** Read a length prefix, refuse a length above `MESSAGE_LEN`, then read
      exactly that many bytes. A length prefix cut short is reported as
      `whenShort`. */
  function ReadField(s: seq<byte>, whenShort: Halt): (f: Field)
    ensures f.Field? ==> |f.bytes| <= MESSAGE_LEN
    ensures f.Field? ==> s == EncodeSize(|f.bytes|) + f.bytes + f.rest
  {
    if |s| < SIZE_T_BYTES then Missing(whenShort)
    else
      var len := DecodeSize(s[..SIZE_T_BYTES]);
      if len > MESSAGE_LEN then Missing(Oversized)
      else if |s| < SIZE_T_BYTES + len then Missing(Truncated)
      else
        EncodeDecodeSize(s[..SIZE_T_BYTES]);
        assert s == s[..SIZE_T_BYTES] + s[SIZE_T_BYTES..SIZE_T_BYTES + len] + s[SIZE_T_BYTES + len..];
        Field(s[SIZE_T_BYTES..SIZE_T_BYTES + len], s[SIZE_T_BYTES + len..])
  }

  /** A field written with its true length prefix reads back intact. */
  lemma ReadEncodedField(x: seq<byte>, rest: seq<byte>, whenShort: Halt)
    requires |x| <= MESSAGE_LEN
    ensures ReadField(EncodeSize(|x|) + x + rest, whenShort) == Field(x, rest)
  {
    var s := EncodeSize(|x|) + x + rest;
    assert s[..SIZE_T_BYTES] == EncodeSize(|x|);
    assert s[SIZE_T_BYTES..SIZE_T_BYTES + |x|] == x;
    assert s[SIZE_T_BYTES + |x|..] == rest;
  }

  /** One iteration of the reading loop over the bytes `s` still to arrive
      from the peer, all reads assumed to succeed while bytes remain. The
      first length prefix is read with a checked single read, so a short
      one means the peer closed; everything after it is read unchecked, so
      running out there leaves the frame truncated. */
  function DecodeFrame(s: seq<byte>): (st: Step)
    ensures st.Next? ==> |st.rest| + 2 * SIZE_T_BYTES <= |s| && st.rest == s[|s| - |st.rest|..]
    ensures st.Next? ==> |st.shown.sender| <= MESSAGE_LEN && |st.shown.text| <= MESSAGE_LEN
    ensures st.Next? ==> NUL !in st.shown.sender && NUL !in st.shown.text
  {
    match ReadField(s, Closed)
    case Missing(why) => Stop(why)
    case Field(name, afterName) =>
      match ReadField(afterName, Truncated)
      case Missing(why) => Stop(why)
      case Field(text, rest) =>
        assert s == EncodeSize(|name|) + name + (EncodeSize(|text|) + text + rest);
        Next(Display(Received(name), Received(text)), rest)
  }

  /** The bytes every frame spends on its two length prefixes. */
  const FRAME_OVERHEAD: nat := 2 * SIZE_T_BYTES

  /** Every frame the reading thread decodes is exactly two fields of at
      most `MESSAGE_LEN` bytes each, as the sender encodes them, and the
      line shown is those fields read as C strings. */
  lemma DecodeFrameSound(s: seq<byte>)
    requires DecodeFrame(s).Next?
    ensures exists name: seq<byte>, text: seq<byte> | |name| <= MESSAGE_LEN && |text| <= MESSAGE_LEN ::
      s == Encode(name, text) + DecodeFrame(s).rest && DecodeFrame(s).shown == Display(Received(name), Received(text))
  {
    var f1 := ReadField(s, Closed);
    assert f1.Field?;
    var f2 := ReadField(f1.rest, Truncated);
    assert f2.Field?;
    var name, text := f1.bytes, f2.bytes;
    assert DecodeFrame(s) == Next(Display(Received(name), Received(text)), f2.rest);
    assert s == Encode(name, text) + f2.rest by {
      Regroup(EncodeSize(|name|), name, EncodeSize(|text|), text, f2.rest);
    }
  }

  lemma Regroup<T>(a: seq<T>, b: seq<T>, c: seq<T>, d: seq<T>, r: seq<T>)
    ensures a + b + (c + d + r) == a + b + c + d + r
  {
  }

  /** Everything a peer's reading thread displays, in order, and why it
      stopped. */
  datatype Session = Session(shown: seq<Display>, why: Halt)

  /** The reading thread's loop over the whole stream a peer sends. */
  function ReadLoop(s: seq<byte>): (r: Session)
    ensures |r.shown| * FRAME_OVERHEAD <= |s|
    decreases |s|
  {
    match DecodeFrame(s)
    case Stop(why) => Session([], why)
    case Next(d, rest) =>
      var tail := ReadLoop(rest);
      var n := |tail.shown|;
      OneMoreFrame(n);
      Session([d] + tail.shown, tail.why)
  }

  /** Whatever a peer sends, every line its reading thread displays is a
      NUL-free name and text of at most `MESSAGE_LEN` bytes each. */
  lemma {:induction false} ReadLoopShowsFittingLines(s: seq<byte>)
    ensures forall i | 0 <= i < |ReadLoop(s).shown| :: Fits(ReadLoop(s).shown[i])
    decreases |s|
  {
    match DecodeFrame(s)
    case Stop(_) =>
    case Next(d, rest) =>
      ReadLoopShowsFittingLines(rest);
      var tail := ReadLoop(rest).shown;
      assert ReadLoop(s).shown == [d] + tail;
      forall i | 0 <= i < |[d] + tail|
        ensures Fits(([d] + tail)[i])
      {
        if i > 0 {
          assert ([d] + tail)[i] == tail[i - 1];
        }
      }
  }

  lemma OneMoreFrame(n: nat)
    ensures (n + 1) * FRAME_OVERHEAD == n * FRAME_OVERHEAD + FRAME_OVERHEAD
  {
  }

  /** Decoding a frame gives back the line encoded in it and leaves the rest
      of the stream alone. */
  lemma DecodeEncode(name: seq<byte>, text: seq<byte>, rest: seq<byte>)
    requires Fits(Display(name, text))
    ensures DecodeFrame(Encode(name, text) + rest) == Next(Display(name, text), rest)
  {
    var afterName := EncodeSize(|text|) + text + rest;
    assert Encode(name, text) + rest == EncodeSize(|name|) + name + afterName;
    ReadEncodedField(name, afterName, Closed);
    ReadEncodedField(text, rest, Truncated);
  }

  /** The frames for a run of lines, back to back. */
  function EncodeAll(ds: seq<Display>): (s: seq<byte>)
    requires forall i | 0 <= i < |ds| :: Fits(ds[i])
  {
    if ds == [] then []
    else
      assert Fits(ds[0]);
      Encode(ds[0].sender, ds[0].text) + EncodeAll(ds[1..])
  }

  /** A stream of well-formed frames is displayed line for line, in order,
      before whatever follows them is read. */
  lemma {:induction false} ReadLoopOfEncoded(ds: seq<Display>, tail: seq<byte>)
    requires forall i | 0 <= i < |ds| :: Fits(ds[i])
    ensures ReadLoop(EncodeAll(ds) + tail) == Session(ds + ReadLoop(tail).shown, ReadLoop(tail).why)
  {
    if ds == [] {
      assert EncodeAll(ds) + tail == tail;
    } else {
      var d := ds[0];
      var rest := EncodeAll(ds[1..]) + tail;
      var s := EncodeAll(ds) + tail;
      assert DecodeFrame(s) == Next(d, rest) by {
        assert Fits(d);
        assert s == Encode(d.sender, d.text) + rest;
        DecodeEncode(d.sender, d.text, rest);
      }
      assert ReadLoop(rest) == Session(ds[1..] + ReadLoop(tail).shown, ReadLoop(tail).why) by {
        ReadLoopOfEncoded(ds[1..], tail);
      }
      var after := ReadLoop(tail);
      calc {
        ReadLoop(s);
        Session([d] + ReadLoop(rest).shown, ReadLoop(rest).why);
        Session([d] + (ds[1..] + after.shown), after.why);
        { PrependHead(ds, after.shown); }
        Session(ds + after.shown, after.why);
      }
    }
  }

  lemma PrependHead<T>(xs: seq<T>, ys: seq<T>)
    requires xs != []
    ensures [xs[0]] + (xs[1..] + ys) == xs + ys
  {
    assert xs == [xs[0]] + xs[1..];
  }

  /** A peer that sends frames and closes has every line displayed, and the
      thread then stops because the next length cannot be read. */
  lemma SessionShowsEveryFrame(ds: seq<Display>)
    requires forall i | 0 <= i < |ds| :: Fits(ds[i])
    ensures ReadLoop(EncodeAll(ds)) == Session(ds, Closed)
  {
    ReadLoopOfEncoded(ds, []);
    assert EncodeAll(ds) + [] == EncodeAll(ds);
  }

  /** A name length above `MESSAGE_LEN` ends the session: the frames before
      it are displayed, nothing of it or after it. */
  lemma OversizedNameEndsSession(ds: seq<Display>, nameLen: nat, junk: seq<byte>)
    requires forall i | 0 <= i < |ds| :: Fits(ds[i])
    requires MESSAGE_LEN < nameLen && IsSize(nameLen)
    ensures ReadLoop(EncodeAll(ds) + (EncodeSize(nameLen) + junk)) == Session(ds, Oversized)
  {
    ReadLoopOfEncoded(ds, EncodeSize(nameLen) + junk);
    assert (EncodeSize(nameLen) + junk)[..SIZE_T_BYTES] == EncodeSize(nameLen);
  }

  /** A text length above `MESSAGE_LEN` ends the session too, even after a
      well-formed name: that frame's name is not displayed. */
  lemma OversizedTextEndsSession(ds: seq<Display>, name: seq<byte>, textLen: nat, junk: seq<byte>)
    requires forall i | 0 <= i < |ds| :: Fits(ds[i])
    requires |name| <= MESSAGE_LEN && MESSAGE_LEN < textLen && IsSize(textLen)
    ensures ReadLoop(EncodeAll(ds) + (EncodeSize(|name|) + name + (EncodeSize(textLen) + junk))) == Session(ds, Oversized)
  {
    var afterName := EncodeSize(textLen) + junk;
    ReadLoopOfEncoded(ds, EncodeSize(|name|) + name + afterName);
    ReadEncodedField(name, afterName, Closed);
    assert afterName[..SIZE_T_BYTES] == EncodeSize(textLen);
  }

  /** A field cut short before its last byte never reads as a field. */
  lemma ReadFieldOfPrefix(x: seq<byte>, k: nat, whenShort: Halt)
    requires |x| <= MESSAGE_LEN && k < SIZE_T_BYTES + |x|
    ensures ReadField((EncodeSize(|x|) + x)[..k], whenShort).Missing?
  {
    var p := (EncodeSize(|x|) + x)[..k];
    if k >= SIZE_T_BYTES {
      assert p[..SIZE_T_BYTES] == EncodeSize(|x|);
    }
  }

  /** A frame cut short anywhere shows nothing: the thread stops before
      displaying any part of it. */
  lemma PartialFrameShowsNothing(name: seq<byte>, text: seq<byte>, k: nat)
    requires Fits(Display(name, text))
    requires k < |Encode(name, text)|
    ensures DecodeFrame(Encode(name, text)[..k]).Stop?
    ensures ReadLoop(Encode(name, text)[..k]).shown == []
  {
    var n := |name|;
    var p := Encode(name, text)[..k];
    if k < SIZE_T_BYTES + n {
      assert p == (EncodeSize(n) + name)[..k];
      ReadFieldOfPrefix(name, k, Closed);
    } else {
      var afterName := (EncodeSize(|text|) + text)[..k - SIZE_T_BYTES - n];
      assert p == EncodeSize(n) + name + afterName;
      ReadEncodedField(name, afterName, Closed);
      ReadFieldOfPrefix(text, k - SIZE_T_BYTES - n, Truncated);
    }
  }
}

=== FILE: cstrings.dfy ===
/** NUL-terminated C strings: `strlen`, the contents a buffer holds, and
    `strcmp`. A C string's contents never contain the NUL byte. */
module CStrings {
  import opened SizeT

  const NUL: byte := 0

  /** `strlen`: the index of the first NUL of a terminated buffer. */
  function StrLen(buf: seq<byte>): (n: nat)
    requires NUL in buf
    ensures n < |buf| && buf[n] == NUL
    ensures NUL !in buf[..n]
  {
    if buf[0] == NUL then 0
    else
      assert NUL in buf[1..] by {
        var k :| 0 <= k < |buf| && buf[k] == NUL;
        assert buf[1..][k - 1] == NUL;
      }
      var n := 1 + StrLen(buf[1..]);
      assert buf[..n] == [buf[0]] + buf[1..][..n - 1];
      n
  }

  /** The C string a terminated buffer holds: its longest NUL-free prefix. */
  function Contents(buf: seq<byte>): (s: seq<byte>)
    requires NUL in buf
    ensures NUL !in s
    ensures |s| < |buf| && s == buf[..|s|] && buf[|s|] == NUL
  {
    buf[..StrLen(buf)]
  }

  /** Terminating a NUL-free byte string and reading it back as a C string
      gives the bytes back; a NUL inside cuts them short. */
  lemma {:induction false} ContentsOfTerminated(s: seq<byte>)
    ensures Contents(s + [NUL]) <= s
    ensures NUL !in s ==> Contents(s + [NUL]) == s
  {
    var c := Contents(s + [NUL]);
    if |c| == |s| {
      assert c == (s + [NUL])[..|s|] == s;
    }
  }

  /** The byte `strcmp` sees at index `i` of a C string: past the contents,
      the terminator. */
  function At(s: seq<byte>, i: nat): byte {
    if i < |s| then s[i] else NUL
  }

  /** `strcmp` from index `i` on: the difference of the first pair of bytes
      that differ, or zero once both strings end together. */
  function StrCmpFrom(a: seq<byte>, b: seq<byte>, i: nat): (r: int)
    requires NUL !in a && NUL !in b
    requires i <= |a|
    ensures -256 < r < 256
    decreases |a| - i
  {
    if At(a, i) != At(b, i) then At(a, i) - At(b, i)
    else if At(a, i) == NUL then 0
    else StrCmpFrom(a, b, i + 1)
  }

  /** Past an index where the two strings still agree, comparing gives
      zero exactly when the whole strings are equal. */
  lemma {:induction false} StrCmpFromZero(a: seq<byte>, b: seq<byte>, i: nat)
    requires NUL !in a && NUL !in b
    requires i <= |a| && i <= |b| && a[..i] == b[..i]
    ensures StrCmpFrom(a, b, i) == 0 <==> a == b
    decreases |a| - i
  {
    if At(a, i) != At(b, i) {
    } else if At(a, i) == NUL {
      assert i == |a| && i == |b|;
      assert a == a[..i] && b == b[..i];
    } else {
      assert a[..i + 1] == a[..i] + [a[i]] && b[..i + 1] == b[..i] + [b[i]];
      StrCmpFromZero(a, b, i + 1);
    }
  }

  /** `strcmp(a, b)` on the contents of two C strings: zero exactly when
      they are equal, otherwise the difference of two bytes. */
  function StrCmp(a: seq<byte>, b: seq<byte>): (r: int)
    requires NUL !in a && NUL !in b
    ensures r == 0 <==> a == b
    ensures -256 < r < 256
  {
    StrCmpFromZero(a, b, 0);
    StrCmpFrom(a, b, 0)
  }
}

=== FILE: fanout.dfy ===
/** `broadcast` of p2pchat.c: send one line, as a frame, to every registered
    peer but the one it came from. Each peer's frame goes out as four
    `write_helper` calls, and the first whose result is not its length
    abandons that peer and moves on to the next. */
module Fanout {
  import opened SizeT
  import opened CStrings
  import opened Io
  import opened Ui
  import opened Codec
  import opened Peers
  import Writing

  /** Every connection's writes, from the start of this broadcast on, keyed
      by descriptor. */
  type Net = int -> Oracle

  ghost predicate WellBehaved(net: Net) {
    forall fd :: Honest(net(fd)) && Progress(net(fd))
  }

  /** Reference definition of how many bytes of `Concat(fields)` reach a
      connection that has taken `pos` bytes already, when each field is one
      full write and the sender gives up after the first that fails. */
  function Deliver(o: Oracle, fields: seq<seq<byte>>, pos: nat): (n: nat)
    requires Honest(o) && Progress(o)
    ensures n <= |Concat(fields)|
    decreases |fields|
  {
    if fields == [] then 0
    else
      match Run(o, pos, |fields[0]|, 0)
      case Finished => |fields[0]| + Deliver(o, fields[1..], pos + |fields[0]|)
      case Failed(moved, _) => moved
  }

  /** Every field's full write finishes. */
  ghost predicate Accepts(o: Oracle, fields: seq<seq<byte>>, pos: nat)
    requires Honest(o) && Progress(o)
    decreases |fields|
  {
    fields == [] || (Run(o, pos, |fields[0]|, 0).Finished? && Accepts(o, fields[1..], pos + |fields[0]|))
  }

  /** The whole of the fields arrives exactly when every one of the writes
      finishes. */
  lemma {:induction false} DeliverAllIffAccepted(o: Oracle, fields: seq<seq<byte>>, pos: nat)
    requires Honest(o) && Progress(o)
    ensures Deliver(o, fields, pos) == |Concat(fields)| <==> Accepts(o, fields, pos)
    decreases |fields|
  {
    if fields != [] {
      DeliverAllIffAccepted(o, fields[1..], pos + |fields[0]|);
    }
  }

  /** The bytes of the frame for `name` and `text` that reach a connection
      answering with `o`. */
  function Delivered(o: Oracle, name: seq<byte>, text: seq<byte>): (got: seq<byte>)
    requires Honest(o) && Progress(o)
    requires IsSize(|name|) && IsSize(|text|)
    ensures got <= Encode(name, text)
  {
    EncodeIsFields(name, text);
    Encode(name, text)[..Deliver(o, Fields(name, text), 0)]
  }

  /** The writes of one peer's frame, in order, each a `write_helper` call
      checked against `(ssize_t)len`; the first mismatch stops the peer.
      `sent` is what the connection accepted and `complete` whether every
      write passed the check. */
  method SendFields(o: Oracle, fields: seq<seq<byte>>, pos: nat) returns (sent: seq<byte>, complete: bool)
    requires Honest(o) && Progress(o)
    requires forall k | 0 <= k < |fields| :: |fields[k]| < SSIZE_T_LIMIT
    ensures sent == Concat(fields)[..Deliver(o, fields, pos)]
    ensures complete <==> Accepts(o, fields, pos)
    decreases |fields|
  {
    if fields == [] {
      return [], true;
    }
    var len := |fields[0]|;
    var r, s, calls := Writing.WriteHelper(o, pos, fields[0], len);
    FirstWrite(o, fields, pos, s, calls);
    CastsInvert(len, 0);
    if r != ToSsize(len) {
      return s, false;
    }
    var rest, restComplete := SendFields(o, fields[1..], pos + len);
    sent, complete := s + rest, restComplete;
  }

  /** How the first field's full write decides the rest: a failed one is
      all the connection gets, a finished one hands on to the next field. */
  lemma FirstWrite(o: Oracle, fields: seq<seq<byte>>, pos: nat, s: seq<byte>, calls: seq<Call>)
    requires Honest(o) && Progress(o) && fields != []
    requires Summary(calls) == Run(o, pos, |fields[0]|, 0)
    requires !EndsInFailure(calls) ==> Reached(calls) == |fields[0]|
    requires 0 <= Reached(calls) <= |fields[0]| && s == fields[0][..Reached(calls)]
    ensures EndsInFailure(calls) ==> s == Concat(fields)[..Deliver(o, fields, pos)] && !Accepts(o, fields, pos)
    ensures !EndsInFailure(calls) ==> Accepts(o, fields, pos) == Accepts(o, fields[1..], pos + |fields[0]|)
    ensures !EndsInFailure(calls) ==>
      var rest := Concat(fields[1..])[..Deliver(o, fields[1..], pos + |fields[0]|)];
      s + rest == Concat(fields)[..Deliver(o, fields, pos)]
  {
    assert Concat(fields) == fields[0] + Concat(fields[1..]);
    if !EndsInFailure(calls) {
      var rest := Concat(fields[1..])[..Deliver(o, fields[1..], pos + |fields[0]|)];
      assert Concat(fields)[..|fields[0]| + |rest|] == fields[0] + rest;
    }
  }

  /** One peer's frame carrying `name` and `text`. */
  method SendFrame(o: Oracle, name: seq<byte>, text: seq<byte>) returns (sent: seq<byte>, complete: bool)
    requires Honest(o) && Progress(o)
    requires |name| < SSIZE_T_LIMIT && |text| < SSIZE_T_LIMIT
    ensures sent == Delivered(o, name, text)
    ensures complete <==> sent == Encode(name, text)
  {
    EncodeIsFields(name, text);
    sent, complete := SendFields(o, Fields(name, text), 0);
    DeliverAllIffAccepted(o, Fields(name, text), 0);
  }

  /** What the connection `fd` takes from a broadcast of `name` and `text`
      by the peer connected on `uniqueFd`: nothing if it is that peer,
      otherwise the frame up to its first failed write. */
  ghost function Receives(net: Net, fd: int, uniqueFd: int, name: seq<byte>, text: seq<byte>): seq<byte>
    requires WellBehaved(net)
    requires IsSize(|name|) && IsSize(|text|)
  {
    if fd == uniqueFd then [] else Delivered(net(fd), name, text)
  }

  /** What every registered peer's connection takes from one broadcast of
      the C strings `username` and `message` (both NUL-terminated
      buffers), table slot by table slot: nothing for the sender's own
      descriptor, and for every other peer the frame up to its first failed
      write. The table is read, never changed. */
  method Broadcast(t: Registry, uniqueFd: int, username: seq<byte>, message: seq<byte>, net: Net)
    returns (out: seq<seq<byte>>)
    requires Valid(t) && WellBehaved(net)
    requires NUL in username && NUL in message
    requires |username| <= SSIZE_T_LIMIT && |message| <= SSIZE_T_LIMIT
    ensures |out| == t.count
    ensures forall i | 0 <= i < t.count ::
      out[i] == Receives(net, t.slots[i], uniqueFd, Contents(username), Contents(message))
  {
    var user, text := Contents(username), Contents(message);
    out := [];
    var i := 0;
    while i < t.count
      invariant 0 <= i <= t.count && |out| == i
      invariant forall j | 0 <= j < i :: out[j] == Receives(net, t.slots[j], uniqueFd, user, text)
    {
      var fd := t.slots[i];
      if fd == uniqueFd {
        out := out + [[]];
      } else {
        var sent, _ := SendFrame(net(fd), user, text);
        out := out + [sent];
      }
      i := i + 1;
    }
  }

  /** A peer whose connection carries this frame's delivered bytes and
      nothing after them, then hangs up: it displays the line exactly once
      when all the writes finished, and nothing of it otherwise. A peer
      whose write failed stays registered, so a later broadcast can follow
      the fragment on the same stream (see `AbandonedFrameGarblesNext`). */
  lemma DeliveredFrameDisplays(o: Oracle, name: seq<byte>, text: seq<byte>)
    requires Honest(o) && Progress(o)
    requires Fits(Display(name, text))
    ensures var got := Delivered(o, name, text);
      ReadLoop(got).shown == (if Accepts(o, Fields(name, text), 0) then [Display(name, text)] else [])
  {
    var got := Delivered(o, name, text);
    EncodeIsFields(name, text);
    DeliverAllIffAccepted(o, Fields(name, text), 0);
    if Accepts(o, Fields(name, text), 0) {
      SessionShowsEveryFrame([Display(name, text)]);
      assert EncodeAll([Display(name, text)]) == got by {
        assert [Display(name, text)][1..] == [];
      }
    } else {
      PartialFrameShowsNothing(name, text, |got|);
    }
  }

  /** `broadcast` does not hold lines to the receivers' limit: a line longer
      than `MESSAGE_LEN` reaches every peer whose writes succeed and ends
      that peer's reading thread without being shown. */
  lemma LongLineNeverShown(o: Oracle, name: seq<byte>, text: seq<byte>)
    requires Honest(o) && Progress(o)
    requires |name| <= MESSAGE_LEN && MESSAGE_LEN < |text| < SSIZE_T_LIMIT
    requires Accepts(o, Fields(name, text), 0)
    ensures ReadLoop(Delivered(o, name, text)) == Session([], Oversized)
  {
    EncodeIsFields(name, text);
    DeliverAllIffAccepted(o, Fields(name, text), 0);
    assert Delivered(o, name, text) == Encode(name, text);
    OversizedTextEndsSession([], name, |text|, text);
    assert EncodeAll([]) + (EncodeSize(|name|) + name + (EncodeSize(|text|) + text)) == Encode(name, text) by {
      assert EncodeAll([]) == [];
    }
  }

  /** A failed write leaves a fragment on the stream, and the peer stays in
      the table, so the next broadcast's frame lands right after it. Here a
      frame announcing a 10-byte name was abandoned after its first byte
      `b`, and the next frame carries a one-byte name `c` and text `t`. The
      receiver takes that frame's first nine bytes as the rest of the old
      name. It shows a garbled line: `b` and a length byte as the sender,
      under the new text. */
  lemma AbandonedFrameGarblesNext(b: byte, c: byte, t: byte)
    requires b != NUL && c != NUL && t != NUL
    ensures ReadLoop(EncodeSize(10) + [b] + Encode([c], [t])) == Session([Display([b, 1], [t])], Closed)
  {
    var oldName := [b] + EncodeSize(1) + [c];
    var after := EncodeSize(1) + [t];
    var s := EncodeSize(10) + [b] + Encode([c], [t]);
    var d := Display([b, 1], [t]);
    assert DecodeFrame(s) == Next(d, []) by {
      assert s == EncodeSize(|oldName|) + oldName + after;
      ReadEncodedField(oldName, after, Closed);
      assert after == EncodeSize(|[t]|) + [t] + [];
      ReadEncodedField([t], [], Truncated);
      GarbledName(b, c);
      ContentsOfTerminated([t]);
    }
    assert ReadLoop([]) == Session([], Closed) by {
      assert DecodeFrame([]) == Stop(Closed);
    }
    assert ReadLoop(s) == Session([d] + ReadLoop([]).shown, ReadLoop([]).why);
  }

  /** A name byte, a length prefix for 1 and another name byte, shown as a
      C string: the prefix's second byte is a NUL. */
  lemma GarbledName(b: byte, c: byte)
    requires b != NUL
    ensures Received([b] + EncodeSize(1) + [c]) == [b, 1]
  {
    var one := EncodeSize(1);
    assert one[0] == 1 && one[1] == 0 by {
      assert one == ToBytes(1, SIZE_T_BYTES);
    }
    var buf := [b] + one + [c] + [NUL];
    assert buf[0] == b && buf[1] == 1 && buf[2] == NUL;
    assert forall n | 2 < n <= |buf| :: buf[..n][2] == NUL;
    assert StrLen(buf) == 2;
  }
}

=== FILE: input.dfy ===
/** `input_callback` of p2pchat.c: what the node does with a line the local
    user typed. */
module Input {
  import opened SizeT
  import opened CStrings
  import opened Ui

  /** ":quit" and ":q" as bytes. */
  const QUIT: seq<byte> := [58, 113, 117, 105, 116]
  const Q: seq<byte> := [58, 113]

  /** Leave the interface, or show the line under the local user's name. */
  datatype Action = Exit | Show(line: Display)

  /** Classify the contents of the typed line with two `strcmp` tests. The
      line is only shown locally: nothing is sent to the peers. */
  function OnInput(username: seq<byte>, message: seq<byte>): (r: Action)
    requires NUL !in username && NUL !in message
    ensures r == Exit <==> message == QUIT || message == Q
    ensures r != Exit ==> r == Show(Display(username, message))
  {
    if StrCmp(message, QUIT) == 0 || StrCmp(message, Q) == 0 then Exit
    else Show(Display(username, message))
  }
}

=== FILE: io.dfy ===
/** Blocking byte-stream I/O as the full-read and full-write helpers see it.
    The kernel is an oracle: given the position already reached in the
    connection's stream and the number of bytes asked for, `read(2)` or
    `write(2)` answers with the count it transferred or a negative error.
    The helpers' loops are recorded as traces of the calls they issue. */
module Io {
  import opened SizeT

  /** The answer of one system call: (stream position, bytes requested) to
      bytes transferred, or a negative error code. */
  type Oracle = (nat, nat) -> int

  /** `read(2)` and `write(2)` never transfer more than was asked for, and
      answer within the range of `ssize_t`. */
  ghost predicate Honest(o: Oracle) {
    forall pos: nat, n: nat :: -(SSIZE_T_LIMIT as int) <= o(pos, n) <= n
  }

  /** The connection never answers a non-empty request with zero: either some
      bytes move or the call fails. Without it the helpers' loops need not
      end (see `Reading.SpinsAtEndOfStream`). */
  ghost predicate Progress(o: Oracle) {
    forall pos: nat, n: nat :: 0 < n ==> o(pos, n) != 0
  }

  /** A read never hands over bytes the peer has not sent: from any position
      within `incoming` it delivers at most what is left. */
  ghost predicate Supplies(o: Oracle, incoming: seq<byte>) {
    forall pos: nat, n: nat :: pos <= |incoming| ==> pos + o(pos, n) <= |incoming|
  }

  /** One system call of a helper loop: the buffer offset it started from,
      the byte count it asked for, and the kernel's answer. */
  datatype Call = Call(offset: nat, request: nat, reply: int)

  function Last(calls: seq<Call>): Call
    requires |calls| > 0
  {
    calls[|calls| - 1]
  }

  /** The loop stopped because its last call failed. */
  predicate EndsInFailure(calls: seq<Call>) {
    |calls| > 0 && Last(calls).reply < 0
  }

  /** The shape every full-transfer loop over `len` bytes gives its calls:
      the first starts at offset 0, each asks for everything from its offset
      to `len`, each that succeeded moves the next one's offset on by the
      count it transferred, and only the last may have failed. */
  ghost predicate FullTransferTrace(calls: seq<Call>, len: nat) {
    && (|calls| > 0 ==> calls[0].offset == 0)
    && (forall k | 0 <= k < |calls| :: calls[k].offset < len && calls[k].request == len - calls[k].offset)
    && (forall k | 0 < k < |calls| :: Follows(calls[k - 1], calls[k]))
  }

  /** `next` was issued right after `prev` succeeded, at the offset `prev`
      reached. */
  predicate Follows(prev: Call, next: Call) {
    prev.reply >= 0 && next.offset == prev.offset + prev.reply
  }

  /** Every call of the trace got the answer the oracle gives at the stream
      position `base + offset`. */
  ghost predicate Answered(o: Oracle, base: nat, calls: seq<Call>) {
    forall k | 0 <= k < |calls| :: calls[k].reply == o(base + calls[k].offset, calls[k].request)
  }

  /** How many bytes a trace moved: up to the failing call's offset, or past
      the last successful call's chunk. */
  function Reached(calls: seq<Call>): int {
    if |calls| == 0 then 0
    else if Last(calls).reply < 0 then Last(calls).offset
    else Last(calls).offset + Last(calls).reply
  }

  /** A loop that has moved `done` of its `len` bytes and has not failed. */
  ghost predicate Midway(o: Oracle, base: nat, calls: seq<Call>, len: nat, done: nat) {
    && done <= len
    && FullTransferTrace(calls, len)
    && Answered(o, base, calls)
    && !EndsInFailure(calls)
    && Reached(calls) == done
  }

  /** Appending a call issued at the offset reached, for the rest of the
      bytes, keeps a trace that has not failed well-formed. */
  lemma AppendCall(calls: seq<Call>, len: nat, done: nat, rc: int)
    requires FullTransferTrace(calls, len) && !EndsInFailure(calls)
    requires Reached(calls) == done < len
    ensures FullTransferTrace(calls + [Call(done, len - done, rc)], len)
  {
    var c := calls + [Call(done, len - done, rc)];
    assert c[0].offset == 0 by {
      if |calls| > 0 {
        assert c[0] == calls[0];
      }
    }
    forall k | 0 <= k < |c|
      ensures c[k].offset < len && c[k].request == len - c[k].offset
    {
      if k < |calls| {
        assert c[k] == calls[k];
      }
    }
    forall k | 0 < k < |c|
      ensures Follows(c[k - 1], c[k])
    {
      if k == |calls| {
        assert c[k - 1] == Last(calls);
      } else {
        assert c[k - 1] == calls[k - 1] && c[k] == calls[k];
      }
    }
  }

  lemma AppendAnswered(o: Oracle, base: nat, calls: seq<Call>, call: Call)
    requires Answered(o, base, calls)
    requires call.reply == o(base + call.offset, call.request)
    ensures Answered(o, base, calls + [call])
  {
    var c := calls + [call];
    forall k | 0 <= k < |c|
      ensures c[k].reply == o(base + c[k].offset, c[k].request)
    {
      if k < |calls| {
        assert c[k] == calls[k];
      }
    }
  }

  /** Issuing the next call, at offset `done` for the remaining `len - done`
      bytes: a failing answer ends the trace there, any other keeps the loop
      midway with the offset advanced by the answer. */
  lemma ExtendTrace(o: Oracle, base: nat, calls: seq<Call>, len: nat, done: nat, rc: int)
    requires Honest(o)
    requires Midway(o, base, calls, len, done) && done < len
    requires rc == o(base + done, len - done)
    ensures FullTransferTrace(calls + [Call(done, len - done, rc)], len)
    ensures Answered(o, base, calls + [Call(done, len - done, rc)])
    ensures rc < 0 ==> EndsInFailure(calls + [Call(done, len - done, rc)])
    ensures rc < 0 ==> Last(calls + [Call(done, len - done, rc)]).reply == rc
    ensures rc < 0 ==> Reached(calls + [Call(done, len - done, rc)]) == done
    ensures rc < 0 ==> Summary(calls + [Call(done, len - done, rc)]) == Failed(done, rc)
    ensures rc >= 0 ==> Midway(o, base, calls + [Call(done, len - done, rc)], len, done + rc)
  {
    AppendCall(calls, len, done, rc);
    AppendAnswered(o, base, calls, Call(done, len - done, rc));
    assert Last(calls + [Call(done, len - done, rc)]) == Call(done, len - done, rc);
  }

  /** How a full transfer ended: all `len` bytes moved, or a call failed
      with `rc` after `moved` bytes. */
  datatype Outcome = Finished | Failed(moved: nat, rc: int)

  function Summary(calls: seq<Call>): Outcome {
    if EndsInFailure(calls) then Failed(Last(calls).offset, Last(calls).reply) else Finished
  }

  /** Reference definition of a full transfer of `len` bytes starting at
      stream position `base`, with `done` bytes already moved: keep asking
      for the rest until nothing is left or a call fails. */
  function Run(o: Oracle, base: nat, len: nat, done: nat): (out: Outcome)
    requires Honest(o) && Progress(o)
    requires done <= len
    ensures out.Failed? ==> done <= out.moved < len && out.rc < 0
    decreases len - done
  {
    if done >= len then Finished
    else
      var rc := o(base + done, len - done);
      if rc < 0 then Failed(done, rc) else Run(o, base, len, done + rc)
  }

  /** A successful call leaves the rest of the transfer to run from the
      advanced offset; a failing one ends it there. */
  lemma RunStep(o: Oracle, base: nat, len: nat, done: nat, rc: int)
    requires Honest(o) && Progress(o)
    requires done < len && rc == o(base + done, len - done)
    ensures rc < 0 ==> Run(o, base, len, done) == Failed(done, rc)
    ensures rc >= 0 ==> done + rc <= len && Run(o, base, len, done) == Run(o, base, len, done + rc)
  {
  }
}

=== FILE: peers.dfy ===
/** The node's table of connected peers: `peers[CAPACITY]` with the count
    `num_peers` of slots in use, filled by the accepting thread. Registration
    happens under the table's lock, so each step here is atomic. */
module Peers {

  const CAPACITY: nat := 1000

  /** The whole array and the count of slots in use; slots from `count` on
      hold whatever was there before. */
  datatype Registry = Registry(slots: seq<int>, count: nat)

  predicate Valid(t: Registry) {
    |t.slots| == CAPACITY && t.count <= CAPACITY
  }

  /** The table at start-up: zero-initialised globals. */
  function Initial(): (t: Registry)
    ensures Valid(t) && t.count == 0
  {
    Registry(seq(CAPACITY, _ => 0), 0)
  }

  /** The descriptors of the registered peers, in registration order. */
  function Active(t: Registry): seq<int>
    requires Valid(t)
  {
    t.slots[..t.count]
  }

  /** What one pass of the accepting loop did with a connection: `accept`
      failed and was skipped, the descriptor was stored, or the table was
      full and the descriptor was closed. */
  datatype Event = Ignored | Stored(fd: int) | Refused(fd: int)

  /** Register an accepted descriptor: store it in the first free slot if
      there is one, otherwise close it and leave the table as it was. */
  function Register(t: Registry, fd: int): (res: (Registry, Event))
    requires Valid(t)
    ensures Valid(res.0)
    ensures t.count < CAPACITY ==> res.1 == Stored(fd) && Active(res.0) == Active(t) + [fd]
    ensures t.count < CAPACITY ==> forall i | 0 <= i < CAPACITY && i != t.count :: res.0.slots[i] == t.slots[i]
    ensures t.count == CAPACITY ==> res == (t, Refused(fd))
  {
    if t.count < CAPACITY then
      var t' := Registry(t.slots[t.count := fd], t.count + 1);
      assert Active(t') == Active(t) + [fd];
      (t', Stored(fd))
    else (t, Refused(fd))
  }

  /** One pass of the accepting loop, given what `accept` returned. */
  function Accept(t: Registry, accepted: int): (res: (Registry, Event))
    requires Valid(t)
    ensures Valid(res.0) && res.0.count <= CAPACITY
    ensures accepted < 0 ==> res == (t, Ignored)
    ensures accepted >= 0 ==> res == Register(t, accepted)
  {
    if accepted < 0 then (t, Ignored) else Register(t, accepted)
  }

  /** The accepting loop over a run of `accept` results. */
  function AcceptAll(t: Registry, results: seq<int>): (res: (Registry, seq<Event>))
    requires Valid(t)
    ensures Valid(res.0) && |res.1| == |results|
    decreases |results|
  {
    if results == [] then (t, [])
    else
      var (t1, e) := Accept(t, results[0]);
      var (t2, es) := AcceptAll(t1, results[1..]);
      (t2, [e] + es)
  }

  /** The descriptors among `accept` results (failures are negative). */
  function Sockets(results: seq<int>): (fds: seq<int>)
    ensures forall i | 0 <= i < |fds| :: fds[i] >= 0
  {
    if results == [] then []
    else if results[0] < 0 then Sockets(results[1..])
    else [results[0]] + Sockets(results[1..])
  }

  /** The descriptors the loop closed. */
  function ClosedFds(events: seq<Event>): seq<int> {
    if events == [] then []
    else if events[0].Refused? then [events[0].fd] + ClosedFds(events[1..])
    else ClosedFds(events[1..])
  }

  function Min(a: int, b: int): int {
    if a < b then a else b
  }

  /** The table `after` and the closed descriptors `closed` are what
      admitting the first `k` of `fds` to `before` leaves, `k` being as many
      as there is room for. */
  ghost predicate AdmitsFirst(before: Registry, after: Registry, closed: seq<int>, fds: seq<int>)
    requires Valid(before)
  {
    var k := Min(|fds|, CAPACITY - before.count);
    Valid(after) && Active(after) == Active(before) + fds[..k] && closed == fds[k..]
  }

  /** Over any run of accepted connections, the table takes the first ones
      until it is full, in order, and closes every one after that; it never
      holds more than `CAPACITY`. */
  lemma {:induction false} AcceptAllAdmitsFirst(t: Registry, results: seq<int>)
    requires Valid(t)
    ensures AdmitsFirst(t, AcceptAll(t, results).0, ClosedFds(AcceptAll(t, results).1), Sockets(results))
    decreases |results|
  {
    if results != [] {
      var step := Accept(t, results[0]);
      var rest := AcceptAll(step.0, results[1..]);
      AcceptAllAdmitsFirst(step.0, results[1..]);
      assert AcceptAll(t, results) == (rest.0, [step.1] + rest.1);
      ClosedFdsCons(step.1, rest.1);
      if results[0] < 0 {
        assert Sockets(results) == Sockets(results[1..]);
      } else if t.count < CAPACITY {
        AdmitOne(t, step.0, rest.0, results[0], Sockets(results[1..]), ClosedFds(rest.1));
      } else {
        assert Sockets(results) == [results[0]] + Sockets(results[1..]);
      }
    }
  }

  lemma ClosedFdsCons(e: Event, es: seq<Event>)
    ensures ClosedFds([e] + es) == (if e.Refused? then [e.fd] else []) + ClosedFds(es)
  {
    assert ([e] + es)[1..] == es;
  }

  /** Storing `fd` and then admitting the first of `fds` is admitting the
      first of `[fd] + fds`. */
  lemma AdmitOne(t: Registry, t1: Registry, t2: Registry, fd: int, fds: seq<int>, closed: seq<int>)
    requires Valid(t) && t.count < CAPACITY
    requires Valid(t1) && Active(t1) == Active(t) + [fd] && t1.count == t.count + 1
    requires AdmitsFirst(t1, t2, closed, fds)
    ensures AdmitsFirst(t, t2, closed, [fd] + fds)
  {
    var k := Min(|fds|, CAPACITY - t1.count);
    assert ([fd] + fds)[..k + 1] == [fd] + fds[..k];
    assert ([fd] + fds)[k + 1..] == fds[k..];
  }

  /** However many connections arrive, the count of registered peers never
      exceeds the capacity and every connection beyond it is closed. */
  lemma RegistryBound(results: seq<int>)
    requires |Sockets(results)| >= CAPACITY
    ensures Active(AcceptAll(Initial(), results).0) == Sockets(results)[..CAPACITY]
    ensures ClosedFds(AcceptAll(Initial(), results).1) == Sockets(results)[CAPACITY..]
  {
    AcceptAllAdmitsFirst(Initial(), results);
  }
}

=== FILE: reading.dfy ===
/** `read_helper` of reading.c (p2pchat.c carries a verbatim copy): fill a
    buffer with exactly `len` bytes from a connection by re-issuing partial
    reads at an advancing offset. */
module Reading {
  import opened SizeT
  import opened Io

  /** The loop as written. `incoming` is everything the peer sends and
      `start` the position the connection has reached; `filled` is the
      buffer afterwards and `calls` the `read` calls issued. The result is
      a `size_t`, so a failing read's negative answer comes back wrapped. */
  method ReadHelper(o: Oracle, incoming: seq<byte>, start: nat, buf: seq<byte>, len: nat)
    returns (r: nat, filled: seq<byte>, calls: seq<Call>)
    requires Honest(o) && Progress(o) && Supplies(o, incoming)
    requires start <= |incoming|
    requires len <= |buf| && IsSize(len)
    ensures FullTransferTrace(calls, len) && Answered(o, start, calls)
    ensures len == 0 ==> calls == [] && r == 0
    ensures !EndsInFailure(calls) ==> Reached(calls) == len && r == len
    ensures EndsInFailure(calls) ==> r == ToSize(Last(calls).reply)
    ensures IsSsize(len) ==> (r == len <==> !EndsInFailure(calls))
    ensures Summary(calls) == Run(o, start, len, 0)
    ensures 0 <= Reached(calls) <= len
    ensures Holds(incoming, start, buf, filled, Reached(calls))
  {
    var bytesRead: nat := 0;
    filled, calls := buf, [];
    while bytesRead < len
      invariant Midway(o, start, calls, len, bytesRead)
      invariant Run(o, start, len, bytesRead) == Run(o, start, len, 0)
      invariant start + bytesRead <= |incoming|
      invariant Holds(incoming, start, buf, filled, bytesRead)
      decreases len - bytesRead
    {
      var rc := o(start + bytesRead, len - bytesRead);
      ExtendTrace(o, start, calls, len, bytesRead, rc);
      RunStep(o, start, len, bytesRead, rc);
      calls := calls + [Call(bytesRead, len - bytesRead, rc)];
      if rc < 0 {
        r := ToSize(rc);
        return;
      }
      filled := Deposit(incoming, start, buf, filled, bytesRead, rc);
      bytesRead := bytesRead + rc;
    }
    r := bytesRead;
  }

  /** The buffer holds the stream's next `done` bytes at its front and is
      untouched beyond them. */
  ghost predicate Holds(incoming: seq<byte>, start: nat, buf: seq<byte>, filled: seq<byte>, done: nat) {
    && |filled| == |buf|
    && done <= |buf|
    && start + done <= |incoming|
    && filled[..done] == incoming[start..start + done]
    && filled[done..] == buf[done..]
  }

  /** One read's chunk lands at offset `done`, right after the bytes already
      there, and the rest of the buffer is left alone. */
  function Deposit(incoming: seq<byte>, start: nat, buf: seq<byte>, filled: seq<byte>, done: nat, rc: nat): (r: seq<byte>)
    requires Holds(incoming, start, buf, filled, done)
    requires done + rc <= |buf| && start + done + rc <= |incoming|
    ensures Holds(incoming, start, buf, r, done + rc)
  {
    var r := filled[..done] + incoming[start + done..start + done + rc] + filled[done + rc..];
    assert r[done + rc..] == filled[done + rc..] == filled[done..][rc..];
    r
  }

  /** Where the as-written loop stands after some iterations: still looping
      with `bytesRead` bytes in the buffer, or returned `value`. */
  datatype LoopState = Looping(bytesRead: nat) | Returned(value: int)

  /** At most `steps` iterations of the as-written loop, with no assumption
      about zero-length answers. A failing read's answer is returned as it
      came, before `read_helper` converts it to `size_t`. The loop is still
      running only short of `len` and never behind where it started; it
      returns a negative answer or a count of at least `len`. */
  function Iterate(o: Oracle, start: nat, len: nat, bytesRead: nat, steps: nat): (st: LoopState)
    ensures st.Looping? ==> bytesRead <= st.bytesRead < len
    ensures st.Returned? ==> st.value < 0 || len <= st.value
    decreases steps
  {
    if bytesRead >= len then Returned(bytesRead)
    else if steps == 0 then Looping(bytesRead)
    else
      var rc := o(start + bytesRead, len - bytesRead);
      if rc < 0 then Returned(rc) else Iterate(o, start, len, bytesRead + rc, steps - 1)
  }

  /** On a connection that never answers 0, the as-written loop given
      enough iterations returns what the reference run of a full transfer
      predicts: the length when it finishes, the failing answer when it
      fails. */
  lemma {:induction false} IterateAgreesWithRun(o: Oracle, start: nat, len: nat, done: nat, steps: nat)
    requires Honest(o) && Progress(o) && done <= len && steps >= len - done
    ensures Run(o, start, len, done).Finished? ==> Iterate(o, start, len, done, steps) == Returned(len)
    ensures Run(o, start, len, done).Failed? ==> Iterate(o, start, len, done, steps) == Returned(Run(o, start, len, done).rc)
    decreases len - done
  {
    if done < len {
      var rc := o(start + done, len - done);
      if rc >= 0 {
        IterateAgreesWithRun(o, start, len, done + rc, steps - 1);
      }
    }
  }

  /** Once the peer has closed, `read` answers 0 and the as-written loop
      neither advances nor returns, however many iterations it runs. */
  lemma {:induction false} SpinsAtEndOfStream(o: Oracle, start: nat, len: nat, bytesRead: nat, steps: nat)
    requires bytesRead < len
    requires ClosedAt(o, start + bytesRead)
    ensures Iterate(o, start, len, bytesRead, steps) == Looping(bytesRead)
    decreases steps
  {
    if steps > 0 {
      SpinsAtEndOfStream(o, start, len, bytesRead, steps - 1);
    }
  }

  /** The peer has closed: every read from `pos` on answers 0. */
  ghost predicate ClosedAt(o: Oracle, pos: nat) {
    forall n: nat :: o(pos, n) == 0
  }

  /** A peer that announces a four-byte name, sends two bytes of it and
      closes: the loop reads the two bytes and then spins for ever. */
  lemma TruncatedNameSpins(steps: nat)
    ensures Iterate(EndOfTwoBytes, 0, 4, 0, steps + 1) == Looping(2)
  {
    SpinsAtEndOfStream(EndOfTwoBytes, 0, 4, 2, steps);
  }

  /** A connection whose peer sent two bytes and then closed. */
  function EndOfTwoBytes(pos: nat, n: nat): int {
    if pos < 2 then (if n < 2 - pos then n else 2 - pos) else 0
  }

  /** The loop as evidently intended: an answer of 0 means the peer closed,
      so the loop returns the short count instead of spinning. It ends
      without any progress assumption on the connection. */
  method ReadHelperToEnd(o: Oracle, incoming: seq<byte>, start: nat, buf: seq<byte>, len: nat)
    returns (r: nat, filled: seq<byte>, calls: seq<Call>)
    requires Honest(o) && Supplies(o, incoming)
    requires start <= |incoming|
    requires len <= |buf| && IsSize(len)
    ensures FullTransferTrace(calls, len) && Answered(o, start, calls)
    ensures len == 0 ==> calls == [] && r == 0
    ensures EndsInFailure(calls) ==> r == ToSize(Last(calls).reply)
    ensures !EndsInFailure(calls) ==> r == Reached(calls) <= len
    ensures !EndsInFailure(calls) && r < len ==> |calls| > 0 && Last(calls).reply == 0
    ensures forall k | 0 <= k < |calls| - 1 :: calls[k].reply > 0
    ensures 0 <= Reached(calls) <= len
    ensures Holds(incoming, start, buf, filled, Reached(calls))
  {
    var bytesRead: nat := 0;
    filled, calls := buf, [];
    while bytesRead < len
      invariant Midway(o, start, calls, len, bytesRead)
      invariant start + bytesRead <= |incoming|
      invariant forall k | 0 <= k < |calls| :: calls[k].reply > 0
      invariant Holds(incoming, start, buf, filled, bytesRead)
      decreases len - bytesRead
    {
      var rc := o(start + bytesRead, len - bytesRead);
      ExtendTrace(o, start, calls, len, bytesRead, rc);
      calls := calls + [Call(bytesRead, len - bytesRead, rc)];
      if rc < 0 {
        r := ToSize(rc);
        return;
      }
      if rc == 0 {
        r := bytesRead;
        return;
      }
      filled := Deposit(incoming, start, buf, filled, bytesRead, rc);
      bytesRead := bytesRead + rc;
    }
    r := bytesRead;
  }
}

=== FILE: sizet.dfy ===
/** The fixed-width integers of the platform the chat node is built for (LP64):
    `size_t` occupies eight bytes, `ssize_t` is its signed counterpart, and
    both are laid out little-endian in memory. A length prefix on the wire is
    the in-memory image of a `size_t`, so this module fixes that byte order. */
module SizeT {

  /** One octet of a buffer or of a connection's byte stream. */
  type byte = b: int | 0 <= b < 256

  /** `sizeof(size_t)`. */
  const SIZE_T_BYTES: nat := 8

  /** 2^64: every `size_t` value lies below it. */
  const SIZE_T_LIMIT: nat := 0x1_0000_0000_0000_0000

  /** 2^63: every `ssize_t` value lies in [-2^63, 2^63). */
  const SSIZE_T_LIMIT: nat := 0x8000_0000_0000_0000

  predicate IsSize(n: int) {
    0 <= n < SIZE_T_LIMIT
  }

  predicate IsSsize(n: int) {
    -(SSIZE_T_LIMIT as int) <= n < SSIZE_T_LIMIT
  }

  function Pow256(k: nat): (p: nat)
    ensures p > 0
  {
    if k == 0 then 1 else 256 * Pow256(k - 1)
  }

  lemma SizeTWidth()
    ensures Pow256(SIZE_T_BYTES) == SIZE_T_LIMIT
  {
  }

  /** The `k` low-order bytes of `n`, least significant first. */
  function ToBytes(n: nat, k: nat): (b: seq<byte>)
    ensures |b| == k
  {
    if k == 0 then [] else [n % 256] + ToBytes(n / 256, k - 1)
  }

  /** The number whose little-endian image is `b`. */
  function FromBytes(b: seq<byte>): (n: nat)
    ensures n < Pow256(|b|)
  {
    if |b| == 0 then 0 else b[0] + 256 * FromBytes(b[1..])
  }

  lemma {:induction false} FromToBytes(n: nat, k: nat)
    requires n < Pow256(k)
    ensures FromBytes(ToBytes(n, k)) == n
  {
    if k > 0 {
      var b := ToBytes(n, k);
      assert b[1..] == ToBytes(n / 256, k - 1);
      FromToBytes(n / 256, k - 1);
    }
  }

  lemma {:induction false} ToFromBytes(b: seq<byte>)
    ensures ToBytes(FromBytes(b), |b|) == b
  {
    if |b| > 0 {
      var n := FromBytes(b);
      assert n % 256 == b[0] && n / 256 == FromBytes(b[1..]);
      ToFromBytes(b[1..]);
    }
  }

  /** The value a `size_t` holds whose memory image is `b`, as
      `read(fd, &len, sizeof(size_t))` reconstructs it. */
  function DecodeSize(b: seq<byte>): (n: nat)
    requires |b| == SIZE_T_BYTES
    ensures IsSize(n)
  {
    SizeTWidth();
    FromBytes(b)
  }

  /** The memory image of the `size_t` value `n`, the bytes
      `write(fd, &n, sizeof(size_t))` hands to the kernel. */
  function EncodeSize(n: nat): (b: seq<byte>)
    requires IsSize(n)
    ensures |b| == SIZE_T_BYTES
    ensures DecodeSize(b) == n
  {
    SizeTWidth();
    FromToBytes(n, SIZE_T_BYTES);
    ToBytes(n, SIZE_T_BYTES)
  }

  /** Every eight-byte image is the image of exactly one `size_t`. */
  lemma EncodeDecodeSize(b: seq<byte>)
    requires |b| == SIZE_T_BYTES
    ensures EncodeSize(DecodeSize(b)) == b
  {
    ToFromBytes(b);
  }

  /** The C conversion `(ssize_t) n` of a `size_t`: values from 2^63 on wrap
      around to negatives. */
  function ToSsize(n: nat): (r: int)
    requires IsSize(n)
    ensures IsSsize(r)
    ensures (r - n) % SIZE_T_LIMIT == 0
  {
    if n < SSIZE_T_LIMIT then n else n - SIZE_T_LIMIT
  }

  /** The C conversion `(size_t) r` of an `ssize_t`: negatives wrap around to
      values from 2^63 on. */
  function ToSize(r: int): (n: nat)
    requires IsSsize(r)
    ensures IsSize(n)
    ensures (n - r) % SIZE_T_LIMIT == 0
  {
    if r >= 0 then r else r + SIZE_T_LIMIT
  }

  /** The two conversions are inverse bijections, and agree with the identity
      exactly on [0, 2^63). */
  lemma CastsInvert(n: nat, r: int)
    requires IsSize(n) && IsSsize(r)
    ensures ToSize(ToSsize(n)) == n && ToSsize(ToSize(r)) == r
    ensures ToSsize(n) == n <==> n < SSIZE_T_LIMIT
    ensures ToSize(r) == r <==> r >= 0
  {
  }
}

=== FILE: ui.dfy ===
/** What the chat node hands to its terminal interface. */
module Ui {
  import opened SizeT

  /** One `ui_display(sender, text)` call: a line shown under a sender's
      name. Both are C-string contents. */
  datatype Display = Display(sender: seq<byte>, text: seq<byte>)
}

=== FILE: writing.dfy ===
/** `write_helper` of writing.c: hand a whole buffer to a connection by
    re-issuing partial writes at an advancing offset. */
module Writing {
  import opened SizeT
  import opened Io

  /** The loop as written, on a connection whose writes are answered by `o`
      and which has already accepted `base` bytes of the current frame.
      `sent` is what the connection accepted, chunk after chunk, and
      `calls` the `write` calls issued. The result is an `ssize_t`: the
      first failing answer, or `len` converted to `ssize_t`. */
  method WriteHelper(o: Oracle, base: nat, buf: seq<byte>, len: nat)
    returns (r: int, sent: seq<byte>, calls: seq<Call>)
    requires Honest(o) && Progress(o)
    requires len <= |buf| && IsSize(len)
    ensures FullTransferTrace(calls, len) && Answered(o, base, calls)
    ensures len == 0 ==> calls == [] && r == 0
    ensures !EndsInFailure(calls) ==> Reached(calls) == len && r == ToSsize(len)
    ensures EndsInFailure(calls) ==> r == Last(calls).reply < 0
    ensures Summary(calls) == Run(o, base, len, 0)
    ensures 0 <= Reached(calls) <= len && sent == buf[..Reached(calls)]
  {
    var bytesWritten: nat := 0;
    sent, calls := [], [];
    while bytesWritten < len
      invariant Midway(o, base, calls, len, bytesWritten)
      invariant Run(o, base, len, bytesWritten) == Run(o, base, len, 0)
      invariant sent == buf[..bytesWritten]
      decreases len - bytesWritten
    {
      var rc := o(base + bytesWritten, len - bytesWritten);
      ExtendTrace(o, base, calls, len, bytesWritten, rc);
      RunStep(o, base, len, bytesWritten, rc);
      calls := calls + [Call(bytesWritten, len - bytesWritten, rc)];
      if rc < 0 {
        r := rc;
        return;
      }
      assert buf[..bytesWritten + rc] == buf[..bytesWritten] + buf[bytesWritten..bytesWritten + rc];
      sent := sent + buf[bytesWritten..bytesWritten + rc];
      bytesWritten := bytesWritten + rc;
    }
    r := ToSsize(bytesWritten);
  }
}

=== FILE: writing_header.dfy ===
/** The `write_helper` defined in writing.h: the same full-write loop as
    writing.c's, over a `char` buffer. A `char` is one byte, so the header's
    function is the writing.c loop itself. */
module WritingHeader {
  import opened SizeT
  import opened Io
  import Writing

  method WriteHelper(o: Oracle, base: nat, buf: seq<byte>, len: nat)
    returns (r: int, sent: seq<byte>, calls: seq<Call>)
    requires Honest(o) && Progress(o)
    requires len <= |buf| && IsSize(len)
    ensures FullTransferTrace(calls, len) && Answered(o, base, calls)
    ensures forall j, k | 0 <= j < k < |calls| :: calls[j].offset < calls[k].offset
    ensures len == 0 ==> calls == [] && r == 0
    ensures !EndsInFailure(calls) ==> Reached(calls) == len && r == ToSsize(len)
    ensures EndsInFailure(calls) ==> r == Last(calls).reply < 0 && Reached(calls) < len
    ensures 0 <= Reached(calls) <= len && sent == buf[..Reached(calls)]
  {
    r, sent, calls := Writing.WriteHelper(o, base, buf, len);
    OffsetsIncrease(o, base, calls, len);
  }

  /** In a trace of a connection that never answers 0, each call starts
      strictly further into the buffer than every call before it. */
  lemma {:induction false} OffsetsIncrease(o: Oracle, base: nat, calls: seq<Call>, len: nat)
    requires Progress(o)
    requires FullTransferTrace(calls, len) && Answered(o, base, calls)
    ensures forall j, k | 0 <= j < k < |calls| :: calls[j].offset < calls[k].offset
  {
    forall j, k | 0 <= j < k < |calls|
      ensures calls[j].offset < calls[k].offset
    {
      var i := j;
      while i < k
        invariant j <= i <= k
        invariant calls[j].offset < calls[i].offset || i == j
        decreases k - i
      {
        assert Follows(calls[i], calls[i + 1]);
        assert calls[i].reply != 0;
        i := i + 1;
      }
    }
  }
}
